=== FILE: README.md ===
# ObjectiveAI query nodes for n8n — response format and output parsing

This project models, in Dafny, the decision logic of two n8n nodes that put
the ObjectiveAI query API behind n8n's AI chains:

- the **language-model node** (`LmQueryObjectiveAi`), whose `supplyData`
  turns the node parameters into a response format — plain text, any JSON
  object, or a strict JSON schema — and copies it, with the model id, the
  completion count, the seed, the retry count and the timeout, into the
  record given to the `QueryObjectiveAI` client;
- the **output-parser node** (`OutputParserQueryObjectiveAi`), whose
  `supplyData` checks that the upstream model is a query model and picks a
  parser from its response format, and whose `n8nParserParse` bridges a
  completion's text to n8n's schema validator: it wraps JSON completions
  as `{"output": v}`, validates, and unwraps `output` again.

Files and modules:

| file | module | contents |
|---|---|---|
| `results.dfy` | `Results` | `Option` and `Result` |
| `json_value.dfy` | `JsonValue` | the JSON value type, property lookup, truthiness, the `{output: v}` envelope |
| `json_text.dfy` | `JsonText` | `JSON.parse` and `JSON.stringify` over integer-only JSON |
| `json_roundtrip.dfy` | `JsonRoundTrip` | proof that parsing what was stringified gives the value back |
| `lm_query.dfy` | `LmQueryObjectiveAi` | response-format resolution and the client configuration |
| `output_parser.dfy` | `OutputParserQueryObjectiveAi` | parser selection and the envelope bridge |
| `pipeline.dfy` | `QueryPipeline` | the two nodes together: the parser follows the request |

`JSON.parse` and `JSON.stringify` are not left abstract: the bridge depends
on `JSON.parse(JSON.stringify(v))` giving `v` back, so the model defines a
concrete JSON text format (RFC 8259 without fractions and exponents) and
proves that round trip (`JsonRoundTrip.ParseStringify`). The schema
validator (`N8nStructuredOutputParser.parse`, built by `fromZodJsonSchema`
from `convertJsonSchemaToZod` of the declared schema, or from
`z.record(z.unknown())` for `json_object`) is foreign code and is a
function parameter: `string -> Result<Json, E>` inside the bridge and
`(ParserSchema, string) -> Result<Json, E>` for a selected parser. A thrown
exception or a rejected Promise is an `Err`.

Facts about the code that the model keeps:

- the client configuration is built with no range checks: `n = 0`,
  `maxRetries = -1` or a negative timeout are copied as they are
  (`LmQueryObjectiveAi.NoRangeChecks`);
- a `null` seed is copied into the request as `null`;
- the schema name is passed on as it is, empty or not;
- the schema is whatever `JSON.parse` makes of the schema text, and a
  malformed text is an error;
- a validator failure is passed on as the validator's own error, with
  nothing added to it;
- a schema that parses to a falsy value (`null`, `false`, `0`, `""`) is
  declared to the API as a strict JSON schema while the output parser
  falls back to plain text (`QueryPipeline.FalsySchemaNotEnforced`).

## Model

| member | source | states |
|---|---|---|
| `LmQueryObjectiveAi.Resolve` | nodes/llms/LmQueryObjectiveAi/LmQueryObjectiveAi.node.ts:222-253 | `'json_object'` gives exactly `{type:'json_object'}`; every other option except `'json_schema'`, `'text'` included, gives `{type:'text'}`; under `'json_schema'` resolution fails exactly when the schema text is not JSON, and otherwise the name is copied verbatim, `strict` is true, the schema is `JSON.parse` of the text and the description is normalised |
| `LmQueryObjectiveAi.NormaliseDescription` | nodes/llms/LmQueryObjectiveAi/LmQueryObjectiveAi.node.ts:242-245 | an empty description becomes `undefined`, `null` stays `null`, any other string passes through; the result is never the empty string and the parameter can be read back from it |
| `LmQueryObjectiveAi.SchemaParametersIgnored` | nodes/llms/LmQueryObjectiveAi/LmQueryObjectiveAi.node.ts:225-237 | outside `'json_schema'` the schema name, description and text are never read, so a malformed schema text cannot make resolution fail |
| `LmQueryObjectiveAi.ResolveStringifiedSchema` | nodes/llms/LmQueryObjectiveAi/LmQueryObjectiveAi.node.ts:247 | a schema text written by `JSON.stringify` resolves to that very schema document |
| `LmQueryObjectiveAi.Build` | nodes/llms/LmQueryObjectiveAi/LmQueryObjectiveAi.node.ts:256-273 | the constructor argument carries model, `n`, seed, `maxRetries` and timeout exactly as the parameters give them, whatever their values, beside the given response format |
| `LmQueryObjectiveAi.SupplyData` | nodes/llms/LmQueryObjectiveAi/LmQueryObjectiveAi.node.ts:209-274 | given that the host calls succeed, building the client fails exactly on a malformed schema under `'json_schema'`, with that schema's syntax error; otherwise the configuration carries model, `n`, seed (`null` included), `maxRetries` and timeout unchanged, and the resolved response format |
| `LmQueryObjectiveAi.NoRangeChecks` | nodes/llms/LmQueryObjectiveAi/LmQueryObjectiveAi.node.ts:256-273 | the numeric parameters never decide success and are copied whatever their values |
| `OutputParserQueryObjectiveAi.SelectParser` | nodes/output_parser/OutputParserQueryObjectiveAi/OutputParserQueryObjectiveAi.node.ts:60-88 | a model that is not a query model is an error with the node's message and no parser; a truthy declared JSON schema selects the structured parser over that schema; `json_object` selects the structured parser over an open record; everything else, a missing or falsy schema included, selects the text parser — each as an if-and-only-if |
| `OutputParserQueryObjectiveAi.ValidatorInput` | nodes/output_parser/OutputParserQueryObjectiveAi/OutputParserQueryObjectiveAi.node.ts:96-101 | the validator gets the model's `JSON.stringify({output: v})` when the completion parses as `v`, and the completion unchanged when it does not parse (the model's `JSON.stringify` keeps key order and duplicate keys and writes integers exactly; see Left out) |
| `OutputParserQueryObjectiveAi.ValidatorInputMeaning` | nodes/output_parser/OutputParserQueryObjectiveAi/OutputParserQueryObjectiveAi.node.ts:96-101 | the validator's input is well-formed JSON exactly when the completion is, and then it denotes the envelope of the completion's value |
| `OutputParserQueryObjectiveAi.Unwrap` | nodes/output_parser/OutputParserQueryObjectiveAi/OutputParserQueryObjectiveAi.node.ts:103-107 | a validated object with an `output` key yields that key's value; any other value is returned unchanged |
| `OutputParserQueryObjectiveAi.UnwrapEnvelope` | nodes/output_parser/OutputParserQueryObjectiveAi/OutputParserQueryObjectiveAi.node.ts:98-104 | unwrapping undoes the envelope the bridge put around a parsed completion |
| `OutputParserQueryObjectiveAi.Bridge` | nodes/output_parser/OutputParserQueryObjectiveAi/OutputParserQueryObjectiveAi.node.ts:92-108 | the bridge fails exactly when the validator fails on its input, with the validator's own error, and otherwise returns the unwrapped validated value |
| `OutputParserQueryObjectiveAi.BridgeRoundTrip` | nodes/output_parser/OutputParserQueryObjectiveAi/OutputParserQueryObjectiveAi.node.ts:97-104 | a completion that parses as `v` comes out as `v` whenever the validator, given the envelope of `v`, returns that envelope; nothing is asked of it on other inputs |
| `OutputParserQueryObjectiveAi.BridgeOverParseOnly` | nodes/output_parser/OutputParserQueryObjectiveAi/OutputParserQueryObjectiveAi.node.ts:92-108 | with a test validator that is `JSON.parse` itself (no validator the node builds), the bridge succeeds with `v` exactly when the completion parses as `v` and fails with the completion's text otherwise |
| `OutputParserQueryObjectiveAi.RunParser` | nodes/output_parser/OutputParserQueryObjectiveAi/OutputParserQueryObjectiveAi.node.ts:71-87 | the text parser returns the completion unchanged; a structured parser fails exactly when the validator for its schema rejects the bridge's input, and otherwise returns the unwrapped value |
| `QueryPipeline.ParserFollowsRequest` | nodes/output_parser/OutputParserQueryObjectiveAi/OutputParserQueryObjectiveAi.node.ts:67-88 | for a model the language-model node built, the selected parser matches the requested format: open record for `'json_object'`, the declared schema for a truthy `'json_schema'`, text otherwise |
| `QueryPipeline.FalsySchemaNotEnforced` | nodes/output_parser/OutputParserQueryObjectiveAi/OutputParserQueryObjectiveAi.node.ts:68 | a schema that parses to a falsy value is still sent as a strict JSON schema, but the output parser falls back to text |
| `QueryPipeline.NullSchemaParses` | nodes/llms/LmQueryObjectiveAi/LmQueryObjectiveAi.node.ts:247 | the schema text `null` parses, to a falsy value, so the previous case is reachable |
| `QueryPipeline.StructuredRoundTrip` | nodes/output_parser/OutputParserQueryObjectiveAi/OutputParserQueryObjectiveAi.node.ts:67-104 | with a JSON format, a completion parsing as `v` comes out of the selected parser as `v` whenever the validator for that parser's own schema returns the envelope of `v` it is given; nothing is asked of it under other schemas |
| `QueryPipeline.StructuredRejection` | nodes/output_parser/OutputParserQueryObjectiveAi/OutputParserQueryObjectiveAi.node.ts:67-102 | with a JSON format, a rejection by the validator for the selected parser's own schema comes out of the selected parser as the same error, never as a substitute value |
| `QueryPipeline.TextPassThrough` | nodes/output_parser/OutputParserQueryObjectiveAi/OutputParserQueryObjectiveAi.node.ts:85-87 | with the text format and the host calls succeeding, the client builds and every completion comes back unchanged |
| `JsonRoundTrip.ParseStringify` | nodes/output_parser/OutputParserQueryObjectiveAi/OutputParserQueryObjectiveAi.node.ts:98 | `JSON.parse(JSON.stringify(v))` gives back `v` for every JSON value |
| `JsonValue.Truthy` | nodes/output_parser/OutputParserQueryObjectiveAi/OutputParserQueryObjectiveAi.node.ts:68 | a JSON value is falsy exactly when it is `null`, `false`, `0` or `""`; every array and object is truthy |
| `JsonValue.Lookup` | nodes/output_parser/OutputParserQueryObjectiveAi/OutputParserQueryObjectiveAi.node.ts:103-104 | a property read finds nothing exactly when no member has the key, and otherwise finds a member's value under that key (the last one written) |

## Left out

- The node descriptions: display names, `displayOptions`, `typeOptions`
  minimum values and defaults are form metadata that the code never checks.
- The model list for the form (`GET /query_models`), which is HTTP plumbing.
- Credentials, the proxy agent, the tracing callbacks and the
  failed-attempt handler of the language-model node; the `QueryObjectiveAI`
  constructor itself, of which only its argument is modelled.
- LmQueryObjectiveAi.SupplyData: `getCredentials`, `getNodeParameter`,
  `getProxyAgent`, the tracing callback, the failed-attempt handler and the
  `QueryObjectiveAI` constructor are taken never to fail. In the node any
  of them can throw (`getCredentials` rejects for every response format
  when no credential is set), and then `supplyData` rejects. So
  `SupplyData`'s "fails exactly on a malformed schema under `'json_schema'`",
  and the `SupplyData(p).Ok?` that `QueryPipeline.TextPassThrough` and
  `QueryPipeline.FalsySchemaNotEnforced` ensure, rest on this assumption.
- `convertJsonSchemaToZod`, `N8nStructuredOutputParser.fromZodJsonSchema`
  and its `parse`, and zod: the validator is a function parameter, so the
  model does not say which texts a given schema accepts.
- The text output parser (`QueryObjectiveAITextOutputParser`) is foreign
  code; `RunParser` assumes it hands the completion back unchanged.
- OutputParserQueryObjectiveAi.RunParser: the structured parser that
  `supplyData` returns is a foreign `QueryObjectiveAICustomOutputParser`,
  given the `n8nParserParse` closure and the zod schema. The model assumes
  it calls the closure once per completion, on the completion's text, and
  passes its result and its rejection on unchanged, without using the zod
  schema to validate again; what it does with that schema is not modelled.
  Every `QueryPipeline.Structured…` lemma rests on this assumption.
- OutputParserQueryObjectiveAi.SelectParser: `convertJsonSchemaToZod` and
  `N8nStructuredOutputParser.fromZodJsonSchema`, called on the two
  structured branches, are foreign code and are taken never to fail. If
  either throws, the node's `supplyData` rejects. So the model's "fails
  exactly for a model that is not a query model", and the success that
  `QueryPipeline.ParserFollowsRequest` ensures, rest on this assumption.
- Promises and `await`: a rejected Promise or a thrown exception is an
  `Err`; there is no concurrency to model, each call being independent.
- JsonText.Parse: numbers are integers only; fraction and exponent parts,
  which `JSON.parse` accepts, are rejected. JavaScript numbers are IEEE-754
  doubles, and `JSON.stringify` writes the shortest decimal that reads back
  as the same double; that formatting is not modelled, so integers stand in
  for it. The consequences: a completion such as `{"score":0.5}` does not
  parse in the model and reaches the validator as raw text, not wrapped in
  `{"output": …}`; and a schema text containing `"minimum":0.5` makes
  `LmQueryObjectiveAi.Resolve` fail with a syntax error where the node
  accepts it.
- JsonText.Parse: objects keep their members in the order written, duplicate
  keys included. `JSON.parse` builds a JavaScript object instead, in which a
  repeated key keeps its first position and its last value, and keys that
  are array indices come first in ascending order. A lookup in the model
  still sees the last value written (`JsonValue.Lookup`).
- ValidatorInput: because of the two lines above, the text the model hands
  the validator can differ from what the node hands it. For the completion
  `{"b":1,"0":2}` the node passes `{"output":{"0":2,"b":1}}` and the model
  `{"output":{"b":1,"0":2}}`; for `{"a":1,"b":2,"a":3}` the node passes
  `{"output":{"a":3,"b":2}}` and the model writes all three members; and
  `12345678901234567890` is written back by the node as
  `12345678901234567000`, and integers of 10^21 or more as `1e+21` and so
  on, where the model writes the exact digits. The model is exact for
  completions whose objects have distinct, non-index keys in any order,
  whose integers are below 2^53 in magnitude, and that contain no fraction
  part, no exponent and no `\u` escape of a surrogate.
- The node's numeric parameters are reals, with no NaN or infinities; they
  are only copied, never computed with.
- JsonText.Parse: `\u` escapes naming surrogate code units, paired or not,
  are rejected, because a Dafny character is a Unicode scalar value. The
  consequences: a completion such as `"\ud83d\ude00"` does not parse in the
  model and reaches the validator as raw text, not wrapped in
  `{"output": …}`; and a schema text containing such an escape makes
  `LmQueryObjectiveAi.Resolve` fail with a syntax error where the node
  accepts it.
- OutputParserQueryObjectiveAi.ModelOf: the `QueryObjectiveAI` client is
  foreign code; the model assumes its `chat_completion_create_params
  .response_format` is the very value the language-model node passed to its
  constructor. Every `QueryPipeline` lemma rests on that assumption.
- The `SyntaxError` message: the model's error carries the schema text.

=== FILE: json_roundtrip.dfy ===
/** `JSON.parse(JSON.stringify(j))` gives back `j`: the property the
    output-parser bridge relies on when it wraps a parsed completion in an
    envelope and hands the re-serialised text to the validator. */
module JsonRoundTrip {
  import opened Results
  import opened JsonValue
  import opened JsonText

  /** What may follow a value without being read as part of it. */
  predicate Delimited(rest: string) {
    |rest| == 0 || !IsDigit(rest[0])
  }

  // Regrouping concatenations, kept apart from the functions that produce
  // the pieces so that the solver need not unfold them.

  lemma Regroup(a: string, sep: string, b: string, close: string, rest: string)
    ensures a + sep + b + close + rest == a + (sep + (b + close + rest))
  {
  }

  lemma Regroup3(a: string, close: string, rest: string)
    ensures a + close + rest == a + (close + rest)
  {
  }

  lemma AppendFirst<T>(done: seq<T>, xs: seq<T>)
    requires |xs| > 0
    ensures done + [xs[0]] + xs[1..] == done + xs
  {
    assert [xs[0]] + xs[1..] == xs;
  }

  lemma Inner(open: string, b: string, close: string, rest: string)
    requires |open| == 1
    ensures (open + b + close + rest)[1..] == b + close + rest
  {
  }

  // ---------------------------------------------------------------------
  // Numbers

  lemma {:induction false} DigitsValueOfNatText(n: nat)
    ensures DigitsValue(NatText(n)) == n
  {
    if n >= 10 {
      var d := NatText(n / 10);
      var s := d + [DigitChar(n % 10)];
      assert s[..|s| - 1] == d;
      DigitsValueOfNatText(n / 10);
    }
  }

  lemma {:induction false} NatTextFirstDigit(n: nat)
    ensures NatText(n)[0] == '0' <==> n == 0
  {
    if n >= 10 {
      NatTextFirstDigit(n / 10);
    }
  }

  lemma {:induction false} LeadingDigitsOfDigitRun(d: string, rest: string)
    requires forall i :: 0 <= i < |d| ==> IsDigit(d[i])
    requires Delimited(rest)
    ensures LeadingDigits(d + rest) == |d|
  {
    if |d| > 0 {
      assert (d + rest)[1..] == d[1..] + rest;
      LeadingDigitsOfDigitRun(d[1..], rest);
    }
  }

  lemma NatTextRead(n: nat, rest: string)
    requires Delimited(rest)
    ensures var t := NatText(n) + rest;
            var k := if t[0] == '0' then 1 else LeadingDigits(t);
            k == |NatText(n)| && t[..k] == NatText(n) && t[k..] == rest
  {
    var d := NatText(n);
    var t := d + rest;
    NatTextFirstDigit(n);
    if n == 0 {
      assert d == "0";
    } else {
      LeadingDigitsOfDigitRun(d, rest);
    }
    assert t[..|d|] == d && t[|d|..] == rest;
  }

  lemma ReadNumberRoundTrip(i: int, rest: string)
    requires Delimited(rest)
    ensures ReadNumber(IntText(i) + rest) == Some((JNumber(i), rest))
  {
    var m: nat := if i < 0 then -i else i;
    NatTextRead(m, rest);
    DigitsValueOfNatText(m);
    if i < 0 {
      assert ("-" + NatText(m) + rest)[1..] == NatText(m) + rest;
    }
  }

  // ---------------------------------------------------------------------
  // Strings

  lemma HexPairRead(c: char, tail: string)
    requires c as int < 0x20
    ensures var e := EscapeChar(c);
            ReadStringBody(e + tail) == match ReadStringBody(tail)
                                        case None => None
                                        case Some((body, rest)) => Some(([c] + body, rest))
  {
    var e := EscapeChar(c);
    var s := e + tail;
    if c == '\n' || c == '\r' || c == '\t' || c as int == 8 || c as int == 12 {
      assert s[1..][1..] == tail;
    } else {
      var code := c as int;
      assert s[1..][5..] == tail;
      var quad := s[1..][1..5];
      assert HexValue(quad[0]) == Some(0) && HexValue(quad[1]) == Some(0);
      assert HexValue(quad[2]) == Some(code / 16) && HexValue(quad[3]) == Some(code % 16);
      assert ReadHex4(quad) == Some(code);
      assert (code as char) == c;
    }
  }

  /** Reading back one written character prepends it to what follows. */
  lemma EscapeCharRead(c: char, tail: string)
    ensures ReadStringBody(EscapeChar(c) + tail) == match ReadStringBody(tail)
                                                   case None => None
                                                   case Some((body, rest)) => Some(([c] + body, rest))
  {
    var s := EscapeChar(c) + tail;
    if c as int < 0x20 {
      HexPairRead(c, tail);
    } else if c == '"' || c == '\\' {
      assert s[1..][1..] == tail;
    } else {
      assert s[1..] == tail;
    }
  }

  lemma {:induction false} StringRoundTrip(str: string, rest: string)
    ensures ReadStringBody(Escape(str) + "\"" + rest) == Some((str, rest))
  {
    if |str| == 0 {
      assert Escape(str) + "\"" + rest == "\"" + rest;
    } else {
      var tail := Escape(str[1..]) + "\"" + rest;
      assert Escape(str) + "\"" + rest == EscapeChar(str[0]) + tail;
      StringRoundTrip(str[1..], rest);
      EscapeCharRead(str[0], tail);
      assert [str[0]] + str[1..] == str;
    }
  }

  // ---------------------------------------------------------------------
  // Values

  /** Written values never begin with whitespace or a closing bracket. */
  lemma StringifyStart(j: Json)
    ensures |Stringify(j)| > 0
    ensures var c := Stringify(j)[0];
            !IsWhitespace(c) && c != ']' && c != '}'
            && (j.JNumber? <==> (c == '-' || IsDigit(c)))
  {
    if j.JNumber? && j.n >= 0 {
      assert IsDigit(NatText(j.n)[0]);
    }
  }

  lemma ItemsStart(items: seq<Json>)
    requires |items| > 0
    ensures |StringifyItems(items)| > 0
    ensures var c := StringifyItems(items)[0];
            !IsWhitespace(c) && c != ']'
  {
    StringifyStart(items[0]);
  }

  // How `ReadValue` dispatches on the first character once no whitespace
  // precedes the value.

  lemma ReadValueNull(s: string)
    requires |s| > 0 && s[0] == 'n'
    ensures ReadValue(s) == ReadLiteral(s, "null", JNull)
  {
    assert SkipWhitespace(s) == s;
  }

  lemma ReadValueTrue(s: string)
    requires |s| > 0 && s[0] == 't'
    ensures ReadValue(s) == ReadLiteral(s, "true", JBool(true))
  {
    assert SkipWhitespace(s) == s;
  }

  lemma ReadValueFalse(s: string)
    requires |s| > 0 && s[0] == 'f'
    ensures ReadValue(s) == ReadLiteral(s, "false", JBool(false))
  {
    assert SkipWhitespace(s) == s;
  }

  lemma ReadLiteralPrefix(word: string, v: Json, rest: string)
    requires |word| > 0
    ensures ReadLiteral(word + rest, word, v) == Some((v, rest))
  {
    assert (word + rest)[..|word|] == word && (word + rest)[|word|..] == rest;
  }

  lemma ReadValueString(s: string)
    requires |s| > 0 && s[0] == '"'
    ensures ReadValue(s) == match ReadStringBody(s[1..])
                            case None => None
                            case Some((str, rest)) => Some((JString(str), rest))
  {
  }

  lemma ReadValueArray(s: string)
    requires |s| > 0 && s[0] == '['
    ensures ReadValue(s) == ReadArray(s[1..])
  {
  }

  lemma ReadValueObject(s: string)
    requires |s| > 0 && s[0] == '{'
    ensures ReadValue(s) == ReadObject(s[1..])
  {
  }

  lemma ReadValueNumber(s: string)
    requires |s| > 0 && (s[0] == '-' || IsDigit(s[0]))
    ensures ReadValue(s) == ReadNumber(s)
  {
    assert SkipWhitespace(s) == s;
    if s[0] != '-' {
      assert s[0] != 'n' && s[0] != 't' && s[0] != 'f' && s[0] != '"' && s[0] != '[' && s[0] != '{';
    }
  }

  lemma ArrayRoundTrip(items: seq<Json>, rest: string)
    requires Delimited(rest)
    ensures ReadArray(StringifyItems(items) + "]" + rest) == Some((JArray(items), rest))
    decreases items, 1
  {
    var s := StringifyItems(items) + "]" + rest;
    if |items| == 0 {
      assert s == "]" + rest;
      assert SkipWhitespace(s) == s;
    } else {
      ItemsStart(items);
      assert SkipWhitespace(s) == s;
      ItemsRoundTrip(items, [], rest);
      assert [] + items == items;
    }
  }

  lemma ObjectRoundTrip(members: seq<Member>, rest: string)
    requires Delimited(rest)
    ensures ReadObject(StringifyMembers(members) + "}" + rest) == Some((JObject(members), rest))
    decreases members, 1
  {
    var s := StringifyMembers(members) + "}" + rest;
    if |members| == 0 {
      assert s == "}" + rest;
      assert SkipWhitespace(s) == s;
    } else {
      MembersStart(members);
      assert SkipWhitespace(s) == s;
      MembersRoundTrip(members, [], rest);
      assert [] + members == members;
    }
  }

  lemma MembersStart(members: seq<Member>)
    requires |members| > 0
    ensures |StringifyMembers(members)| > 0 && StringifyMembers(members)[0] == '"'
  {
    assert StringifyMember(members[0])[0] == '"';
  }

  lemma {:induction false} ValueRoundTrip(j: Json, rest: string)
    requires Delimited(rest)
    ensures ReadValue(Stringify(j) + rest) == Some((j, rest))
    decreases j, 0
  {
    var s := Stringify(j) + rest;
    match j
    case JNull =>
      ReadValueNull(s);
      ReadLiteralPrefix("null", JNull, rest);
    case JBool(b) =>
      if b {
        ReadValueTrue(s);
        ReadLiteralPrefix("true", JBool(true), rest);
      } else {
        ReadValueFalse(s);
        ReadLiteralPrefix("false", JBool(false), rest);
      }
    case JNumber(n) =>
      StringifyStart(j);
      ReadValueNumber(s);
      ReadNumberRoundTrip(n, rest);
    case JString(str) =>
      ReadValueString(s);
      Inner("\"", Escape(str), "\"", rest);
      StringRoundTrip(str, rest);
    case JArray(items) =>
      ReadValueArray(s);
      Inner("[", StringifyItems(items), "]", rest);
      ArrayRoundTrip(items, rest);
    case JObject(members) =>
      ReadValueObject(s);
      Inner("{", StringifyMembers(members), "}", rest);
      ObjectRoundTrip(members, rest);
  }

  // One step of `ReadItems` and `ReadMembers`, with the separator that
  // follows the element already known.

  lemma ReadItemsLast(s: string, done: seq<Json>, v: Json, rest: string)
    requires ReadValue(s) == Some((v, "]" + rest))
    ensures ReadItems(s, done) == Some((JArray(done + [v]), rest))
  {
    assert SkipWhitespace("]" + rest) == "]" + rest;
    assert ("]" + rest)[1..] == rest;
  }

  lemma ReadItemsNext(s: string, done: seq<Json>, v: Json, more: string)
    requires ReadValue(s) == Some((v, "," + more))
    ensures ReadItems(s, done) == ReadItems(more, done + [v])
  {
    assert SkipWhitespace("," + more) == "," + more;
    assert ("," + more)[1..] == more;
  }

  /** The text of a non-empty element list, split before its first separator. */
  lemma ItemsText(items: seq<Json>, rest: string)
    requires |items| > 0
    ensures |items| == 1 ==> StringifyItems(items) + "]" + rest == Stringify(items[0]) + ("]" + rest)
    ensures |items| > 1 ==> StringifyItems(items) + "]" + rest ==
                            Stringify(items[0]) + ("," + (StringifyItems(items[1..]) + "]" + rest))
  {
    if |items| == 1 {
      Regroup3(Stringify(items[0]), "]", rest);
    } else {
      assert StringifyItems(items) == Stringify(items[0]) + "," + StringifyItems(items[1..]);
      Regroup(Stringify(items[0]), ",", StringifyItems(items[1..]), "]", rest);
    }
  }

  lemma {:induction false} ItemsRoundTrip(items: seq<Json>, done: seq<Json>, rest: string)
    requires |items| > 0
    ensures ReadItems(StringifyItems(items) + "]" + rest, done) == Some((JArray(done + items), rest))
    decreases items, 0
  {
    var x := items[0];
    ItemsText(items, rest);
    if |items| == 1 {
      ValueRoundTrip(x, "]" + rest);
      ReadItemsLast(Stringify(x) + ("]" + rest), done, x, rest);
      assert [x] == items;
    } else {
      var tail := items[1..];
      var more := StringifyItems(tail) + "]" + rest;
      ValueRoundTrip(x, "," + more);
      ReadItemsNext(Stringify(x) + ("," + more), done, x, more);
      ItemsRoundTrip(tail, done + [x], rest);
      AppendFirst(done, items);
    }
  }

  /** Reading a member's key and colon leaves the text of its value. */
  lemma ReadMemberKey(m: Member, after: string, done: seq<Member>)
    ensures ReadMembers(StringifyMember(m) + after, done) ==
            ReadMemberValue(m.key, Stringify(m.value) + after, done)
  {
    var s := StringifyMember(m) + after;
    assert SkipWhitespace(s) == s;
    var afterKey := ":" + (Stringify(m.value) + after);
    assert s[1..] == Escape(m.key) + "\"" + afterKey;
    StringRoundTrip(m.key, afterKey);
    assert SkipWhitespace(afterKey) == afterKey;
    assert afterKey[1..] == Stringify(m.value) + after;
  }

  lemma ReadMemberValueLast(key: string, s: string, done: seq<Member>, v: Json, rest: string)
    requires ReadValue(s) == Some((v, "}" + rest))
    ensures ReadMemberValue(key, s, done) == Some((JObject(done + [Member(key, v)]), rest))
  {
    assert SkipWhitespace("}" + rest) == "}" + rest;
    assert ("}" + rest)[1..] == rest;
  }

  lemma ReadMemberValueNext(key: string, s: string, done: seq<Member>, v: Json, more: string)
    requires ReadValue(s) == Some((v, "," + more))
    ensures ReadMemberValue(key, s, done) == ReadMembers(more, done + [Member(key, v)])
  {
    assert SkipWhitespace("," + more) == "," + more;
    assert ("," + more)[1..] == more;
  }

  /** The text of a non-empty member list, split before its first separator. */
  lemma MembersText(members: seq<Member>, rest: string)
    requires |members| > 0
    ensures |members| == 1 ==> StringifyMembers(members) + "}" + rest == StringifyMember(members[0]) + ("}" + rest)
    ensures |members| > 1 ==> StringifyMembers(members) + "}" + rest ==
                              StringifyMember(members[0]) + ("," + (StringifyMembers(members[1..]) + "}" + rest))
  {
    if |members| == 1 {
      Regroup3(StringifyMember(members[0]), "}", rest);
    } else {
      assert StringifyMembers(members) == StringifyMember(members[0]) + "," + StringifyMembers(members[1..]);
      Regroup(StringifyMember(members[0]), ",", StringifyMembers(members[1..]), "}", rest);
    }
  }

  lemma {:induction false} MembersRoundTrip(members: seq<Member>, done: seq<Member>, rest: string)
    requires |members| > 0
    ensures ReadMembers(StringifyMembers(members) + "}" + rest, done) == Some((JObject(done + members), rest))
    decreases members, 0
  {
    var m := members[0];
    MembersText(members, rest);
    if |members| == 1 {
      var after := "}" + rest;
      ReadMemberKey(m, after, done);
      ValueRoundTrip(m.value, after);
      ReadMemberValueLast(m.key, Stringify(m.value) + after, done, m.value, rest);
      assert [m] == members;
    } else {
      var tail := members[1..];
      var more := StringifyMembers(tail) + "}" + rest;
      var after := "," + more;
      ReadMemberKey(m, after, done);
      ValueRoundTrip(m.value, after);
      ReadMemberValueNext(m.key, Stringify(m.value) + after, done, m.value, more);
      MembersRoundTrip(tail, done + [m], rest);
      AppendFirst(done, members);
    }
  }

  /** `JSON.parse(JSON.stringify(j))` deep-equals `j`. */
  lemma ParseStringify(j: Json)
    ensures Parse(Stringify(j)) == Some(j)
  {
    ValueRoundTrip(j, "");
    assert Stringify(j) + "" == Stringify(j);
  }
}

=== FILE: json_text.dfy ===
/** The JSON text format as read by `JSON.parse` and written by
    `JSON.stringify`, restricted to integer numbers (section 6 of RFC 8259
    without fraction and exponent parts). */
module JsonText {
  import opened Results
  import opened JsonValue

  // ---------------------------------------------------------------------
  // Characters

  predicate IsWhitespace(c: char) {
    c == ' ' || c == '\t' || c == '\n' || c == '\r'
  }

  predicate IsDigit(c: char) {
    '0' <= c <= '9'
  }

  function DigitValue(c: char): (d: nat)
    requires IsDigit(c)
    ensures d < 10
  {
    (c as int) - ('0' as int)
  }

  function DigitChar(d: nat): (c: char)
    requires d < 10
    ensures IsDigit(c) && DigitValue(c) == d
  {
    ('0' as int + d) as char
  }

  /** Value of a hexadecimal digit in either case, as `\u` escapes accept. */
  function HexValue(c: char): (r: Option<nat>)
    ensures r.Some? ==> r.value < 16
  {
    if '0' <= c <= '9' then Some((c as int) - ('0' as int))
    else if 'a' <= c <= 'f' then Some((c as int) - ('a' as int) + 10)
    else if 'A' <= c <= 'F' then Some((c as int) - ('A' as int) + 10)
    else None
  }

  /** The lower-case hexadecimal digit `JSON.stringify` writes. */
  function HexChar(d: nat): (c: char)
    requires d < 16
    ensures HexValue(c) == Some(d)
  {
    if d < 10 then ('0' as int + d) as char else ('a' as int + d - 10) as char
  }

  function SkipWhitespace(s: string): (t: string)
    ensures |t| <= |s|
    ensures |t| == 0 || !IsWhitespace(t[0])
  {
    if |s| > 0 && IsWhitespace(s[0]) then SkipWhitespace(s[1..]) else s
  }

  // ---------------------------------------------------------------------
  // Writing

  /** Decimal digits of a natural number, without leading zeros. */
  function NatText(n: nat): (s: string)
    ensures |s| > 0
    ensures forall i :: 0 <= i < |s| ==> IsDigit(s[i])
  {
    if n < 10 then [DigitChar(n)] else NatText(n / 10) + [DigitChar(n % 10)]
  }

  function IntText(i: int): string {
    if i < 0 then "-" + NatText(-i) else NatText(i)
  }

  /** How `JSON.stringify` writes one character inside a string literal. */
  function EscapeChar(c: char): string {
    if c == '"' then ['\\', '"']
    else if c == '\\' then ['\\', '\\']
    else if c == '\n' then ['\\', 'n']
    else if c == '\r' then ['\\', 'r']
    else if c == '\t' then ['\\', 't']
    else if c as int == 8 then ['\\', 'b']
    else if c as int == 12 then ['\\', 'f']
    else if c as int < 0x20 then ['\\', 'u', '0', '0', HexChar(c as int / 16), HexChar(c as int % 16)]
    else [c]
  }

  function Escape(s: string): string {
    if |s| == 0 then "" else EscapeChar(s[0]) + Escape(s[1..])
  }

  function Quote(s: string): string {
    "\"" + Escape(s) + "\""
  }

  /** `JSON.stringify(j)`: compact output, no whitespace. */
  function Stringify(j: Json): string {
    match j
    case JNull => "null"
    case JBool(b) => if b then "true" else "false"
    case JNumber(n) => IntText(n)
    case JString(s) => Quote(s)
    case JArray(items) => "[" + StringifyItems(items) + "]"
    case JObject(members) => "{" + StringifyMembers(members) + "}"
  }

  function StringifyItems(items: seq<Json>): string {
    if |items| == 0 then ""
    else if |items| == 1 then Stringify(items[0])
    else Stringify(items[0]) + "," + StringifyItems(items[1..])
  }

  function StringifyMember(m: Member): string {
    Quote(m.key) + ":" + Stringify(m.value)
  }

  function StringifyMembers(members: seq<Member>): string {
    if |members| == 0 then ""
    else if |members| == 1 then StringifyMember(members[0])
    else StringifyMember(members[0]) + "," + StringifyMembers(members[1..])
  }

  // ---------------------------------------------------------------------
  // Reading. Each reader takes the text still to be read and returns the
  // value it read together with the text after it.

  /** Number of leading decimal digits of `s`. */
  function LeadingDigits(s: string): (k: nat)
    ensures k <= |s|
    ensures forall i :: 0 <= i < k ==> IsDigit(s[i])
    ensures k < |s| ==> !IsDigit(s[k])
  {
    if |s| > 0 && IsDigit(s[0]) then 1 + LeadingDigits(s[1..]) else 0
  }

  function DigitsValue(d: string): nat
    requires forall i :: 0 <= i < |d| ==> IsDigit(d[i])
  {
    if |d| == 0 then 0 else DigitsValue(d[..|d| - 1]) * 10 + DigitValue(d[|d| - 1])
  }

  /** An integer: an optional minus sign, then `0` or a digit run that
      does not start with `0`. */
  function ReadNumber(s: string): (r: Option<(Json, string)>)
    ensures r.Some? ==> |r.value.1| < |s|
  {
    var negative := |s| > 0 && s[0] == '-';
    var t := if negative then s[1..] else s;
    if |t| == 0 || !IsDigit(t[0]) then None
    else
      var k := if t[0] == '0' then 1 else LeadingDigits(t);
      var m: int := DigitsValue(t[..k]);
      Some((JNumber(if negative then -m else m), t[k..]))
  }

  /** The character an escape sequence stands for; `s` follows the
      backslash. A `\u` escape naming a surrogate code unit is refused. */
  function ReadEscape(s: string): (r: Option<(char, string)>)
    ensures r.Some? ==> |r.value.1| < |s|
  {
    if |s| == 0 then None
    else if s[0] == '"' then Some(('"', s[1..]))
    else if s[0] == '\\' then Some(('\\', s[1..]))
    else if s[0] == '/' then Some(('/', s[1..]))
    else if s[0] == 'b' then Some((8 as char, s[1..]))
    else if s[0] == 'f' then Some((12 as char, s[1..]))
    else if s[0] == 'n' then Some(('\n', s[1..]))
    else if s[0] == 'r' then Some(('\r', s[1..]))
    else if s[0] == 't' then Some(('\t', s[1..]))
    else if s[0] == 'u' && |s| >= 5 then
      match ReadHex4(s[1..5])
      case Some(code) =>
        if code < 0xD800 || 0xE000 <= code then Some((code as char, s[5..])) else None
      case None => None
    else None
  }

  /** The rest of a string literal; `s` follows the opening quote. */
  function ReadStringBody(s: string): (r: Option<(string, string)>)
    ensures r.Some? ==> |r.value.1| < |s|
  {
    if |s| == 0 then None
    else if s[0] == '"' then Some(("", s[1..]))
    else if s[0] == '\\' then
      match ReadEscape(s[1..])
      case None => None
      case Some((c, after)) =>
        match ReadStringBody(after)
        case None => None
        case Some((body, rest)) => Some(([c] + body, rest))
    else if (s[0] as int) < 0x20 then None
    else
      match ReadStringBody(s[1..])
      case None => None
      case Some((body, rest)) => Some(([s[0]] + body, rest))
  }

  /** The keyword `word` standing for `v`. */
  function ReadLiteral(s: string, word: string, v: Json): (r: Option<(Json, string)>)
    requires |word| > 0
    ensures r.Some? ==> |r.value.1| < |s|
  {
    if |s| >= |word| && s[..|word|] == word then Some((v, s[|word|..])) else None
  }

  /** The code unit four hexadecimal digits name. */
  function ReadHex4(s: string): (r: Option<nat>)
    requires |s| >= 4
    ensures r.Some? ==> r.value < 0x10000
  {
    match (HexValue(s[0]), HexValue(s[1]), HexValue(s[2]), HexValue(s[3]))
    case (Some(a), Some(b), Some(c), Some(d)) => Some(((a * 16 + b) * 16 + c) * 16 + d)
    case _ => None
  }

  /** One JSON value, after optional leading whitespace. */
  function ReadValue(s: string): (r: Option<(Json, string)>)
    ensures r.Some? ==> |r.value.1| < |s|
    decreases |s|, 0
  {
    var t := SkipWhitespace(s);
    if |t| == 0 then None
    else if t[0] == 'n' then ReadLiteral(t, "null", JNull)
    else if t[0] == 't' then ReadLiteral(t, "true", JBool(true))
    else if t[0] == 'f' then ReadLiteral(t, "false", JBool(false))
    else if t[0] == '"' then
      match ReadStringBody(t[1..])
      case None => None
      case Some((str, rest)) => Some((JString(str), rest))
    else if t[0] == '[' then ReadArray(t[1..])
    else if t[0] == '{' then ReadObject(t[1..])
    else ReadNumber(t)
  }

  /** The rest of an array; `s` follows the opening bracket. */
  function ReadArray(s: string): (r: Option<(Json, string)>)
    ensures r.Some? ==> |r.value.1| < |s|
    decreases |s|, 2
  {
    var t := SkipWhitespace(s);
    if |t| > 0 && t[0] == ']' then Some((JArray([]), t[1..]))
    else ReadItems(t, [])
  }

  /** Array elements from the next one on; `done` holds those already read. */
  function ReadItems(s: string, done: seq<Json>): (r: Option<(Json, string)>)
    ensures r.Some? ==> |r.value.1| < |s|
    decreases |s|, 1
  {
    match ReadValue(s)
    case None => None
    case Some((v, after)) =>
      var t := SkipWhitespace(after);
      if |t| > 0 && t[0] == ',' then ReadItems(t[1..], done + [v])
      else if |t| > 0 && t[0] == ']' then Some((JArray(done + [v]), t[1..]))
      else None
  }

  /** The rest of an object; `s` follows the opening brace. */
  function ReadObject(s: string): (r: Option<(Json, string)>)
    ensures r.Some? ==> |r.value.1| < |s|
    decreases |s|, 2
  {
    var t := SkipWhitespace(s);
    if |t| > 0 && t[0] == '}' then Some((JObject([]), t[1..]))
    else ReadMembers(t, [])
  }

  /** Object members from the next one on; `done` holds those already read. */
  function ReadMembers(s: string, done: seq<Member>): (r: Option<(Json, string)>)
    ensures r.Some? ==> |r.value.1| < |s|
    decreases |s|, 1
  {
    var t := SkipWhitespace(s);
    if |t| == 0 || t[0] != '"' then None
    else
      match ReadStringBody(t[1..])
      case None => None
      case Some((key, afterKey)) =>
        var u := SkipWhitespace(afterKey);
        if |u| == 0 || u[0] != ':' then None
        else ReadMemberValue(key, u[1..], done)
  }

  /** The value of the member named `key`; `s` follows the colon. */
  function ReadMemberValue(key: string, s: string, done: seq<Member>): (r: Option<(Json, string)>)
    ensures r.Some? ==> |r.value.1| < |s|
    decreases |s|, 1
  {
    match ReadValue(s)
    case None => None
    case Some((v, after)) =>
      var t := SkipWhitespace(after);
      if |t| > 0 && t[0] == ',' then ReadMembers(t[1..], done + [Member(key, v)])
      else if |t| > 0 && t[0] == '}' then Some((JObject(done + [Member(key, v)]), t[1..]))
      else None
  }

  /** `JSON.parse(text)`: one value, surrounded by optional whitespace and
      nothing else. `None` stands for the `SyntaxError` it throws. */
  function Parse(text: string): Option<Json> {
    match ReadValue(text)
    case None => None
    case Some((v, rest)) => if |SkipWhitespace(rest)| == 0 then Some(v) else None
  }
}

=== FILE: json_value.dfy ===
/** JSON values as produced by `JSON.parse` and consumed by `JSON.stringify`.
    Numbers are integers only; object members keep the order they were
    written in. */
module JsonValue {
  import opened Results

  datatype Json =
    | JNull
    | JBool(b: bool)
    | JNumber(n: int)
    | JString(s: string)
    | JArray(items: seq<Json>)
    | JObject(members: seq<Member>)

  datatype Member = Member(key: string, value: Json)

  /** The value a JavaScript property read `obj[key]` sees: when a key was
      written more than once the last member wins, as with `JSON.parse`. */
  function Lookup(members: seq<Member>, key: string): (r: Option<Json>)
    ensures r.None? <==> forall i :: 0 <= i < |members| ==> members[i].key != key
    ensures r.Some? ==> exists i :: 0 <= i < |members| && members[i] == Member(key, r.value)
                                   && forall k :: i < k < |members| ==> members[k].key != key
  {
    if |members| == 0 then None
    else if members[|members| - 1].key == key then Some(members[|members| - 1].value)
    else
      var prefix := members[..|members| - 1];
      var r := Lookup(prefix, key);
      assert forall i :: 0 <= i < |prefix| ==> prefix[i] == members[i];
      assert r.Some? ==> exists i :: 0 <= i < |members| && members[i] == Member(key, r.value)
                                   && forall k :: i < k < |members| ==> members[k].key != key by {
        if r.Some? {
          var i :| 0 <= i < |prefix| && prefix[i] == Member(key, r.value)
                   && forall k :: i < k < |prefix| ==> prefix[k].key != key;
          assert members[i] == Member(key, r.value);
          assert forall k :: i < k < |members| ==> members[k].key != key;
        }
      }
      r
  }

  /** JavaScript truthiness of a JSON value: `null`, `false`, `0` and `""`
      are falsy, every array and object is truthy. */
  function Truthy(j: Json): (r: bool)
    ensures !r <==> j in {JNull, JBool(false), JNumber(0), JString("")}
  {
    match j
    case JNull => false
    case JBool(b) => b
    case JNumber(n) => n != 0
    case JString(s) => s != ""
    case JArray(_) => true
    case JObject(_) => true
  }

  /** `typeof v === 'object' && v !== null && 'output' in v` */
  predicate HasOutput(j: Json) {
    j.JObject? && Lookup(j.members, "output").Some?
  }

  /** The object literal `{ output: v }`. */
  function Envelope(v: Json): (r: Json)
    ensures HasOutput(r) && Lookup(r.members, "output") == Some(v)
  {
    JObject([Member("output", v)])
  }
}

=== FILE: lm_query.dfy ===
/** The language-model node: how `supplyData` turns the node's parameters
    into the record handed to the `QueryObjectiveAI` constructor
    (nodes/llms/LmQueryObjectiveAi/LmQueryObjectiveAi.node.ts). */
module LmQueryObjectiveAi {
  import opened Results
  import opened JsonValue
  import JsonText
  import JsonRoundTrip

  /** The `description` of a JSON-schema response format, a JavaScript
      value that is `undefined`, `null` or a string. */
  datatype Description = Undefined | Null | Given(text: string)

  datatype JsonSchemaFormat = JsonSchemaFormat(
    name: string,
    description: Description,
    strict: bool,
    schema: Json)

  /** `{type: 'text'}`, `{type: 'json_object'}` or
      `{type: 'json_schema', json_schema: {...}}`. */
  datatype ResponseFormat =
    | Text
    | JsonObject
    | JsonSchema(jsonSchema: JsonSchemaFormat)

  /** The values `getNodeParameter` returns. Numbers are JavaScript numbers,
      taken as reals; the description is `string | null`, `None` being
      `null`; the schema is the text of the JSON editor field. */
  datatype Parameters = Parameters(
    model: string,
    maxRetries: real,
    n: real,
    responseFormat: string,
    seed: Option<real>,
    timeout: real,
    schemaName: string,
    schemaDescription: Option<string>,
    schemaText: string)

  /** The `SyntaxError` that `JSON.parse` throws on a malformed schema. */
  datatype ConfigError = SchemaSyntaxError(schemaText: string)

  /** `chat_completion_create_params`. */
  datatype CompletionParams = CompletionParams(
    model: string,
    n: real,
    seed: Option<real>,
    responseFormat: ResponseFormat)

  /** The parts of the `QueryObjectiveAI` constructor argument that the node
      computes from its parameters. */
  datatype QueryConfig = QueryConfig(
    maxRetries: real,
    params: CompletionParams,
    timeout: real)

  /** The parameter value a description was made from: the inverse of
      `NormaliseDescription`. */
  function DescriptionParameter(d: Description): Option<string> {
    match d
    case Undefined => Some("")
    case Null => None
    case Given(text) => Some(text)
  }

  /** An empty description becomes `undefined`; `null` and every other
      string pass through. */
  function NormaliseDescription(param: Option<string>): (d: Description)
    ensures d.Undefined? <==> param == Some("")
    ensures d.Null? <==> param.None?
    ensures d != Given("")
    ensures DescriptionParameter(d) == param
  {
    match param
    case None => Null
    case Some(text) => if text == "" then Undefined else Given(text)
  }

  /** The response-format expression of `supplyData`. Only the
      `'json_schema'` branch reads the schema parameters, and only its
      `JSON.parse` can fail. */
  function Resolve(p: Parameters): (r: Result<ResponseFormat, ConfigError>)
    ensures p.responseFormat == "json_object" ==> r == Ok(JsonObject)
    ensures p.responseFormat != "json_object" && p.responseFormat != "json_schema" ==> r == Ok(Text)
    ensures r.Err? <==> p.responseFormat == "json_schema" && JsonText.Parse(p.schemaText).None?
    ensures r.Err? ==> r.error == SchemaSyntaxError(p.schemaText)
    ensures r.Ok? && p.responseFormat == "json_schema" ==>
              && r.value.JsonSchema?
              && r.value.jsonSchema.name == p.schemaName
              && r.value.jsonSchema.description == NormaliseDescription(p.schemaDescription)
              && r.value.jsonSchema.strict
              && JsonText.Parse(p.schemaText) == Some(r.value.jsonSchema.schema)
  {
    if p.responseFormat == "json_object" then Ok(JsonObject)
    else if p.responseFormat == "json_schema" then
      match JsonText.Parse(p.schemaText)
      case None => Err(SchemaSyntaxError(p.schemaText))
      case Some(schema) =>
        Ok(JsonSchema(JsonSchemaFormat(
          p.schemaName,
          NormaliseDescription(p.schemaDescription),
          true,
          schema)))
    else Ok(Text)
  }

  /** The constructor argument, with credentials, proxy, tracing callbacks
      and the failed-attempt handler left out: every copied parameter is
      kept as it is, whatever its value, beside the given format. */
  function Build(p: Parameters, format: ResponseFormat): (c: QueryConfig)
    ensures Carries(c, p)
    ensures c.params.responseFormat == format
  {
    QueryConfig(
      p.maxRetries,
      CompletionParams(p.model, p.n, p.seed, format),
      p.timeout)
  }

  /** `supplyData` up to the constructor call: resolve, then build. With
      the host calls (credentials, parameters, proxy, tracing, the
      constructor) taken to succeed, it fails exactly on a malformed schema
      under `'json_schema'`, with the resolution's error; otherwise the
      configuration carries every copied parameter unchanged, `null` seed
      included, and the resolved format. */
  function SupplyData(p: Parameters): (r: Result<QueryConfig, ConfigError>)
    ensures r.Err? <==> p.responseFormat == "json_schema" && JsonText.Parse(p.schemaText).None?
    ensures r.Err? ==> r.error == SchemaSyntaxError(p.schemaText)
    ensures r.Ok? ==> Carries(r.value, p) && Resolve(p) == Ok(r.value.params.responseFormat)
  {
    match Resolve(p)
    case Err(e) => Err(e)
    case Ok(format) => Ok(Build(p, format))
  }

  /** The model's parameters that `Build` copies, as they are kept in a
      configuration. */
  predicate Carries(c: QueryConfig, p: Parameters) {
    && c.params.model == p.model
    && c.params.n == p.n
    && c.params.seed == p.seed
    && c.maxRetries == p.maxRetries
    && c.timeout == p.timeout
  }

  /** Two parameter sets that differ at most in the numeric fields. */
  predicate SameButNumbers(p: Parameters, q: Parameters) {
    p.(maxRetries := q.maxRetries, n := q.n, seed := q.seed, timeout := q.timeout) == q
  }

  /** No range checks: `n`, `maxRetries`, `seed` and `timeout` never decide
      whether `supplyData` succeeds, and are copied whatever their values. */
  lemma NoRangeChecks(p: Parameters, q: Parameters)
    requires SameButNumbers(p, q)
    ensures SupplyData(p).Ok? <==> SupplyData(q).Ok?
    ensures SupplyData(q).Ok? ==> Carries(SupplyData(q).value, q)
    ensures SupplyData(p).Ok? ==>
              SupplyData(p).value.params.responseFormat == SupplyData(q).value.params.responseFormat
  {
    assert Resolve(p) == Resolve(q);
  }

  /** Outside `'json_schema'` the schema name, description and text are
      never looked at: a malformed schema is harmless there. */
  lemma SchemaParametersIgnored(p: Parameters, name: string, description: Option<string>, text: string)
    requires p.responseFormat != "json_schema"
    ensures Resolve(p.(schemaName := name, schemaDescription := description, schemaText := text)) == Resolve(p)
    ensures Resolve(p).Ok?
  {
  }

  /** A schema written by `JSON.stringify` resolves to that very document,
      with the given name and the normalised description, in strict mode. */
  lemma ResolveStringifiedSchema(p: Parameters, schema: Json)
    requires p.responseFormat == "json_schema"
    requires p.schemaText == JsonText.Stringify(schema)
    ensures Resolve(p) == Ok(JsonSchema(JsonSchemaFormat(
              p.schemaName, NormaliseDescription(p.schemaDescription), true, schema)))
  {
    JsonRoundTrip.ParseStringify(schema);
  }
}

=== FILE: output_parser.dfy ===
/** The output-parser node: which parser `supplyData` hands out for the
    upstream model, and the envelope bridge `n8nParserParse` between a
    completion's text and the injected schema validator
    (nodes/output_parser/OutputParserQueryObjectiveAi/OutputParserQueryObjectiveAi.node.ts). */
module OutputParserQueryObjectiveAi {
  import opened Results
  import opened JsonValue
  import JsonText
  import JsonRoundTrip
  import Lm = LmQueryObjectiveAi

  /** What the language-model input connection yields: a `QueryObjectiveAI`
      instance, whose `chat_completion_create_params?.response_format` may
      be missing, or anything else. */
  datatype Upstream = QueryModel(responseFormat: Option<Lm.ResponseFormat>) | OtherModel

  /** The schema a structured parser validates against: the one the
      request declared, or `z.record(z.unknown())`. */
  datatype ParserSchema = DeclaredSchema(schema: Json) | OpenRecord

  /** `QueryObjectiveAICustomOutputParser` around `n8nParserParse`, or
      `QueryObjectiveAITextOutputParser`. */
  datatype OutputParser = StructuredParser(schema: ParserSchema) | TextParser

  /** The `NodeOperationError` thrown for a foreign upstream model. */
  datatype SupplyError = NodeOperationError(message: string)

  const NotQueryModelMessage := "The input model must be an ObjectiveAI Query model."

  /** The model as the language-model node returns it, read back by the
      output-parser node: the client is taken to expose as
      `chat_completion_create_params.response_format` exactly the format it
      was constructed with. */
  function ModelOf(c: Lm.QueryConfig): Upstream {
    QueryModel(Some(c.params.responseFormat))
  }

  /** The upstream model declares a JSON schema the parser can be built from:
      `responseFormat?.type === 'json_schema' && responseFormat.json_schema.schema`. */
  predicate DeclaresSchema(u: Upstream) {
    && u.QueryModel?
    && u.responseFormat.Some?
    && u.responseFormat.value.JsonSchema?
    && Truthy(u.responseFormat.value.jsonSchema.schema)
  }

  /** The parser `supplyData` returns for the upstream model. */
  function SelectParser(u: Upstream): (r: Result<OutputParser, SupplyError>)
    ensures r.Err? <==> u.OtherModel?
    ensures r.Err? ==> r.error == NodeOperationError(NotQueryModelMessage)
    ensures r.Ok? && r.value.StructuredParser? && r.value.schema.DeclaredSchema? <==> DeclaresSchema(u)
    ensures DeclaresSchema(u) ==> r.value.schema.schema == u.responseFormat.value.jsonSchema.schema
    ensures r == Ok(StructuredParser(OpenRecord)) <==> u == QueryModel(Some(Lm.JsonObject))
    ensures r == Ok(TextParser) <==>
              u.QueryModel? && !DeclaresSchema(u) && u.responseFormat != Some(Lm.JsonObject)
  {
    match u
    case OtherModel => Err(NodeOperationError(NotQueryModelMessage))
    case QueryModel(format) =>
      if format.Some? && format.value.JsonSchema? && Truthy(format.value.jsonSchema.schema) then
        Ok(StructuredParser(DeclaredSchema(format.value.jsonSchema.schema)))
      else if format.Some? && format.value.JsonObject? then
        Ok(StructuredParser(OpenRecord))
      else
        Ok(TextParser)
  }

  // ---------------------------------------------------------------------
  // n8nParserParse

  /** The text handed to the validator: `JSON.stringify({output: v})` when
      the completion parses as `v`, the completion itself otherwise. */
  function ValidatorInput(text: string): (input: string)
    ensures JsonText.Parse(text).Some? ==> input == JsonText.Stringify(Envelope(JsonText.Parse(text).value))
    ensures JsonText.Parse(text).None? ==> input == text
  {
    match JsonText.Parse(text)
    case Some(v) => JsonText.Stringify(Envelope(v))
    case None => text
  }

  /** The validator sees well-formed JSON exactly when the completion is,
      and then it is the envelope of what the completion means. */
  lemma ValidatorInputMeaning(text: string)
    ensures JsonText.Parse(ValidatorInput(text)) ==
              match JsonText.Parse(text)
              case Some(v) => Some(Envelope(v))
              case None => None
  {
    match JsonText.Parse(text)
    case Some(v) => JsonRoundTrip.ParseStringify(Envelope(v));
    case None =>
  }

  /** The validated value with its envelope removed, when it has one. */
  function Unwrap(parsed: Json): (r: Json)
    ensures HasOutput(parsed) ==> Some(r) == Lookup(parsed.members, "output")
    ensures !HasOutput(parsed) ==> r == parsed
  {
    if HasOutput(parsed) then Lookup(parsed.members, "output").value else parsed
  }

  lemma UnwrapEnvelope(v: Json)
    ensures Unwrap(Envelope(v)) == v
  {
  }

  /** `n8nParserParse`: wrap, validate, unwrap. A validator failure is
      passed on as it is; nothing catches it. */
  function Bridge<E>(validate: string -> Result<Json, E>, text: string): (r: Result<Json, E>)
    ensures r.Err? <==> validate(ValidatorInput(text)).Err?
    ensures r.Err? ==> r.error == validate(ValidatorInput(text)).error
    ensures r.Ok? ==> r.value == Unwrap(validate(ValidatorInput(text)).value)
  {
    match validate(ValidatorInput(text))
    case Err(e) => Err(e)
    case Ok(parsed) => Ok(Unwrap(parsed))
  }

  /** Round trip: a completion that parses as `v` comes out as `v` when the
      validator, given the envelope of `v`, returns that envelope. Nothing is
      asked of the validator on any other input. */
  lemma BridgeRoundTrip<E>(validate: string -> Result<Json, E>, text: string, v: Json)
    requires JsonText.Parse(text) == Some(v)
    requires validate(JsonText.Stringify(Envelope(v))) == Ok(Envelope(v))
    ensures Bridge(validate, text) == Ok(v)
  {
    UnwrapEnvelope(v);
  }

  /** A test validator, not one the node builds: `JSON.parse` itself,
      accepting every well-formed text and rejecting with the text it could
      not read. */
  function ParseOnly(s: string): (r: Result<Json, string>)
    ensures r.Ok? <==> JsonText.Parse(s).Some?
    ensures r.Ok? ==> JsonText.Parse(s) == Some(r.value)
    ensures r.Err? ==> r.error == s
  {
    match JsonText.Parse(s)
    case Some(j) => Ok(j)
    case None => Err(s)
  }

  /** Over the plain parser the bridge is `JSON.parse` of the completion:
      success with `v` exactly when the completion parses as `v`, failure
      with the completion's own text otherwise. */
  lemma BridgeOverParseOnly(text: string)
    ensures Bridge(ParseOnly, text) ==
              match JsonText.Parse(text)
              case Some(v) => Ok(v)
              case None => Err(text)
  {
    ValidatorInputMeaning(text);
    match JsonText.Parse(text)
    case Some(v) => UnwrapEnvelope(v);
    case None =>
  }

  /** The parser `supplyData` returned, applied to one completion. The
      validator is the injected capability, given the schema it was built
      for. The text parser hands the completion back unchanged. */
  function RunParser<E>(p: OutputParser, validate: (ParserSchema, string) -> Result<Json, E>, text: string): (r: Result<Json, E>)
    ensures p.TextParser? ==> r == Ok(JString(text))
    ensures p.StructuredParser? ==> (r.Err? <==> validate(p.schema, ValidatorInput(text)).Err?)
    ensures p.StructuredParser? && r.Err? ==> r.error == validate(p.schema, ValidatorInput(text)).error
    ensures p.StructuredParser? && r.Ok? ==> r.value == Unwrap(validate(p.schema, ValidatorInput(text)).value)
  {
    match p
    case TextParser => Ok(JString(text))
    case StructuredParser(schema) => Bridge(s => validate(schema, s), text)
  }
}

=== FILE: pipeline.dfy ===
/** The two nodes together: the language-model node builds the request and
    the output-parser node, reading the same response format back from the
    model, picks the parser for its answers. */
module QueryPipeline {
  import opened Results
  import opened JsonValue
  import JsonText
  import JsonRoundTrip
  import Lm = LmQueryObjectiveAi
  import opened OutputParserQueryObjectiveAi

  /** The schema text the node was configured with, as `JSON.parse` reads it. */
  function ConfiguredSchema(p: Lm.Parameters): Option<Json> {
    JsonText.Parse(p.schemaText)
  }

  /** The parser the output-parser node picks for a model built from `p`
      agrees with the request: the open record for `'json_object'`, the
      declared schema for `'json_schema'` when that schema is truthy, the
      text parser in every other case. */
  lemma ParserFollowsRequest(p: Lm.Parameters)
    requires Lm.SupplyData(p).Ok?
    ensures SelectParser(ModelOf(Lm.SupplyData(p).value)).Ok?
    ensures p.responseFormat == "json_object" ==>
              SelectParser(ModelOf(Lm.SupplyData(p).value)) == Ok(StructuredParser(OpenRecord))
    ensures p.responseFormat == "json_schema" && Truthy(ConfiguredSchema(p).value) ==>
              SelectParser(ModelOf(Lm.SupplyData(p).value)) == Ok(StructuredParser(DeclaredSchema(ConfiguredSchema(p).value)))
    ensures p.responseFormat == "json_schema" && !Truthy(ConfiguredSchema(p).value) ==>
              SelectParser(ModelOf(Lm.SupplyData(p).value)) == Ok(TextParser)
    ensures p.responseFormat != "json_object" && p.responseFormat != "json_schema" ==>
              SelectParser(ModelOf(Lm.SupplyData(p).value)) == Ok(TextParser)
  {
  }

  /** A falsy schema (`null`, `false`, `0`, `""`) is sent to the API as a
      strict JSON schema, yet the output parser falls back to plain text:
      the `&& responseFormat.json_schema.schema` guard cannot tell it from a
      missing one. */
  lemma FalsySchemaNotEnforced(p: Lm.Parameters, schema: Json)
    requires p.responseFormat == "json_schema"
    requires JsonText.Parse(p.schemaText) == Some(schema)
    requires !Truthy(schema)
    ensures Lm.SupplyData(p).Ok?
    ensures Lm.SupplyData(p).value.params.responseFormat.JsonSchema?
    ensures Lm.SupplyData(p).value.params.responseFormat.jsonSchema.strict
    ensures Lm.SupplyData(p).value.params.responseFormat.jsonSchema.schema == schema
    ensures SelectParser(ModelOf(Lm.SupplyData(p).value)) == Ok(TextParser)
  {
    ParserFollowsRequest(p);
  }

  /** Such a configuration exists: the schema text `null`. */
  lemma NullSchemaParses()
    ensures JsonText.Parse("null") == Some(JNull) && !Truthy(JNull)
  {
    JsonRoundTrip.ParseStringify(JNull);
  }

  /** The parser the output-parser node picks for the model that the
      language-model node built from `p`. */
  function Selected(p: Lm.Parameters): Result<OutputParser, SupplyError>
    requires Lm.SupplyData(p).Ok?
  {
    SelectParser(ModelOf(Lm.SupplyData(p).value))
  }

  /** End to end: with a JSON response format, a completion that parses as
      `v` comes out of the selected parser as `v` when the validator for the
      selected parser's schema returns the envelope of `v` it is given.
      Nothing is asked of the validator under any other schema or input. */
  lemma StructuredRoundTrip<E>(p: Lm.Parameters, validate: (ParserSchema, string) -> Result<Json, E>, text: string, v: Json)
    requires Lm.SupplyData(p).Ok?
    requires p.responseFormat == "json_object" || (p.responseFormat == "json_schema" && Truthy(ConfiguredSchema(p).value))
    requires JsonText.Parse(text) == Some(v)
    requires Selected(p).Ok? && Selected(p).value.StructuredParser? ==>
               validate(Selected(p).value.schema, JsonText.Stringify(Envelope(v))) == Ok(Envelope(v))
    ensures Selected(p).Ok? && Selected(p).value.StructuredParser?
    ensures RunParser(Selected(p).value, validate, text) == Ok(v)
  {
    ParserFollowsRequest(p);
    UnwrapEnvelope(v);
  }

  /** End to end: when the validator for the selected parser's schema
      rejects the wrapped completion, the selected parser fails with that
      very error and never substitutes a value. */
  lemma StructuredRejection<E>(p: Lm.Parameters, validate: (ParserSchema, string) -> Result<Json, E>, text: string, e: E)
    requires Lm.SupplyData(p).Ok?
    requires p.responseFormat == "json_object" || (p.responseFormat == "json_schema" && Truthy(ConfiguredSchema(p).value))
    requires Selected(p).Ok? && Selected(p).value.StructuredParser? ==>
               validate(Selected(p).value.schema, ValidatorInput(text)) == Err(e)
    ensures Selected(p).Ok? && Selected(p).value.StructuredParser?
    ensures RunParser(Selected(p).value, validate, text) == Err(e)
  {
    ParserFollowsRequest(p);
  }

  /** End to end: with the text format every completion comes back
      unchanged, whatever the validator would have said. */
  lemma TextPassThrough<E>(p: Lm.Parameters, validate: (ParserSchema, string) -> Result<Json, E>, text: string)
    requires p.responseFormat != "json_object" && p.responseFormat != "json_schema"
    ensures Lm.SupplyData(p).Ok?
    ensures Selected(p) == Ok(TextParser)
    ensures RunParser(Selected(p).value, validate, text) == Ok(JString(text))
  {
    ParserFollowsRequest(p);
  }
}

=== FILE: results.dfy ===
/** Optional values and success/failure results: the model's stand-ins for
    JavaScript's `null`/`undefined` and for a thrown exception or a rejected
    Promise. */
module Results {

  datatype Option<+T> = None | Some(value: T)

  datatype Result<+T, +E> = Ok(value: T) | Err(error: E)
}
